=== FILE: README.md ===
# mathgl-figure: a Dafny model of the figure core

`mgl::Figure` is a thin wrapper around the MathGL plotting library. Before
anything is drawn, a figure collects plots and keeps some state of its own.
This project models that state and the operations that change it, as pure
functions over immutable values:

- **Style cycler** (`Styles`, from `src/MglStyle.hpp`). Styles come from a
  queue of tokens. A generation of the queue is the cross join of five colours
  `b r g c m` with four line types `- : ; |`, with the colour varying fastest.
  - `get_next` pops the front token and regenerates the palette when the
    queue is empty.
  - `eliminate` erases the first occurrence of a token.
  - The constructors start from one generation.
- **Data series** (`Series`). `mglData` is modelled as a sequence of reals.
  The module has:
  - the series' minimum and maximum;
  - `minPositive`;
  - `make_mgldata`;
  - the default abscissa of `plot(y)`.
- **Range tracker and settings** (`Items`, `Figures`, from `src/figure.cpp`
  and the fields of `src/figure.hpp`).
  - The constructor's defaults.
  - The running bounding box that both `setRanges` overloads widen by min/max
    merges. Merges start from the `max`/`lowest` double sentinels.
  - `ranges`, which sets the box and turns automatic ranging off. A direct
    `setRanges` call still widens the box afterwards.
  - `setlog`, `grid`, `legend`, the labels and the title.
- **Plotting and sessions** (`Plots`, from `src/figure.hpp` and `fplot`).
  - `plot(y)`, `plot(x, y)`, `plot3` and `fplot`. Each chooses a style and
    appends one item; `plot3` also sets the sticky `has_3d_` flag.
  - A session of calls (`Run`), and the invariants such a session keeps.
- **Save decisions** (`Save`, from `save`). Two pure choices only:
  - the subplot margin spec built from labels and title;
  - the output format and file name.

Things to know when reading the model against the code:

- **No operation fails.** Every error in the source is a message on stderr
  followed by normal execution: inverted `ranges`, a non-positive maximum on a
  log axis, non-positive data on a log axis, series of different lengths, a
  legend position beyond ±2. The model returns the new state together with a
  `warned` flag.
- **The `yMin` quirk is modelled as written.** On a log-scaled x axis,
  `setRanges` overwrites `yMin`, not `xMin`, with the least positive x value
  (`src/figure.cpp:212`). The box's lower y bound then comes from the x data.
  `Figures.Bounds` states this for every input. `Figures.LogXSetsYMin`
  exhibits an input where a y value falls outside the box as a result.
- **`minPositive` prints its own warning.** It warns for any non-positive
  value, so on a log axis some message is printed exactly when the data holds
  a non-positive value. The comment above that branch (src/figure.cpp:204-207)
  mentions only the "maximal value <= 0" message.
- **The sentinels are exact.** Values are reals, and the sentinels are the
  exact values `DoubleMax = (2^53 - 1) * 2^971` and `DoubleLowest =
  -DoubleMax`. The first merge on a fresh figure is exact for data in the
  double range.

## Model

| member | source | states |
|---|---|---|
| Styles.CrossJoinLayout | src/MglStyle.hpp:6-16 | crossjoin keeps the old contents of res as a prefix and puts A[i] + B[j] at position \|res\| + j·\|A\| + i, so A varies fastest |
| Styles.CrossJoin | src/MglStyle.hpp:9-16 | crossjoin appends exactly \|A\|·\|B\| tokens |
| Styles.GetNew | src/MglStyle.hpp:37-42 | get_new grows the queue by exactly 5 colours × 4 line types = 20 tokens, whatever it held before |
| Styles.PaletteChars | src/MglStyle.hpp:37-42 | token k of a generation is colour "brgcm"[k mod 5] followed by line type "-:;\|"[k div 5]: "b-", "r-", …, "m\|" |
| Styles.PaletteDistinct | src/MglStyle.hpp:37-42 | the 20 tokens of a generation are pairwise distinct |
| Styles.Fresh | src/MglStyle.hpp:45-48 | the default constructor holds exactly one generation |
| Styles.GetNext | src/MglStyle.hpp:75-84 | on a non-empty queue get_next returns the front and leaves the rest in order; on an empty queue it first regenerates the palette |
| Styles.DrainPrefix | src/MglStyle.hpp:75-84 | up to \|q\| get_next calls hand out a prefix of q in order and leave the remaining suffix |
| Styles.FreshCycle | src/MglStyle.hpp:75-84 | call k on a fresh cycler returns palette token k mod 20, so the 21st call returns "b-" like the 1st |
| Styles.CycleOf | src/MglStyle.hpp:77-83 | a 20-token queue that an exhausted queue refills to hands out p[k mod 20] on call k |
| Styles.FirstGeneration | src/MglStyle.hpp:37-48 | 20 calls on a fresh cycler return the whole palette, 20 distinct tokens, and empty the queue |
| Styles.Eliminate | src/MglStyle.hpp:86-91 | eliminate is a no-op when the token is absent and removes exactly one token when present |
| Styles.EliminateFirst | src/MglStyle.hpp:86-91 | eliminate erases only the first occurrence; the tokens before and after keep their order |
| Styles.EliminateGone | src/MglStyle.hpp:86-91 | in a duplicate-free queue, eliminate removes the token completely |
| Styles.EliminateIsRemove | src/MglStyle.hpp:86-91 | on a duplicate-free queue, eliminate is the same as filtering the token out |
| Styles.DrainAfterEliminate | src/MglStyle.hpp:75-91 | after eliminate(t) on a reachable queue, draining what is left of the generation never returns t |
| Styles.FromUsed | src/MglStyle.hpp:51-56 | the single-token constructor removes that token from one generation and never refills (19 tokens left when the token is a palette token); the queue it builds is a subsequence of one generation |
| Styles.EliminateAllIsRemove | src/MglStyle.hpp:64-67 | the constructor's elimination loop filters out exactly the listed tokens |
| Styles.FromUsedAll | src/MglStyle.hpp:59-73 | the container constructor removes every listed token and regenerates only if that emptied the queue; the queue it builds is a subsequence of one generation |
| Styles.GetNextValid | src/MglStyle.hpp:75-84 | get_next keeps the queue a subsequence of one generation |
| Styles.EliminateValid | src/MglStyle.hpp:86-91 | eliminate keeps the queue a subsequence of one generation |
| Series.Minimal | src/figure.cpp:201-202 | the minimum of a non-empty series is one of its values and at most every value |
| Series.Maximal | src/figure.cpp:201-202 | the maximum of a non-empty series is one of its values and at least every value |
| Series.MinPositive | src/figure.cpp:166-188 | minPositive is positive, at most the double maximum, at most every positive value, and either the double maximum or a value of the series; it warns iff some value is not positive |
| Series.MinPositiveIsLeast | src/figure.cpp:166-188 | when a value is positive and all are doubles, minPositive is a positive value of the series and no greater than any positive value |
| Series.MakeData | src/figure.hpp:26-31 | make_mgldata keeps the length and converts each element in place |
| Series.MakeDataOrder | src/figure.hpp:28-30 | the conversion keeps the order of any two values in both directions; the minimum of the converted series is the conversion of a value no greater than any other in the original, and the maximum is the conversion of a value no smaller than any other |
| Series.AbscissaSpan | src/figure.hpp:119-126 | the default abscissa 1..n is strictly increasing with minimum 1 and maximum n |
| Figures.NewFigure | src/figure.cpp:30-47 | a new figure has axis and an "xy" grid in colour "{h7}" on, no legend (position (1, 1)), no 3D, automatic ranges, the (max, lowest) sentinel box and z range, linear axes, a fresh cycler, empty title and labels, a 6pt font and an 800x800 picture |
| Figures.AxisWarning | src/figure.cpp:208-220 | the log-axis messages of setRanges (including the one from minPositive) are printed exactly when a log axis holds a non-positive value |
| Figures.Merge | src/figure.cpp:224-227 | the min/max merge never narrows the box and each new bound is either the data bound or the old bound |
| Figures.Bounds | src/figure.cpp:194-228 | the x bounds merge the x minimum and maximum; on linear axes the y bounds merge the y minimum and maximum widened by margin × y extent; on a log x axis with linear y the lower y bound starts from the least positive x value instead; on a log y axis the y bounds merge the least positive y value and the y maximum, with no margin; the box never narrows |
| Figures.SetRanges | src/figure.cpp:194-228 | setRanges changes only the box and warns exactly on non-positive data on a log axis |
| Figures.SetRangesCovers | src/figure.cpp:223-227 | on linear axes with a non-negative margin the new box contains every point of both series |
| Figures.FirstRangesExact | src/figure.cpp:38-39 | the first merge with margin 0 on the sentinel box gives exactly the series' own bounds, without warning |
| Figures.LogYNoMargin | src/figure.cpp:214-220 | on a log y axis the margin argument has no effect |
| Figures.LogXSetsYMin | src/figure.cpp:208-213 | on a log x axis the lower y bound comes from the x data: x = [2, 3], y = [-5, 1] gives yMin = 2 and leaves -5 outside the box, without warning |
| Figures.LogMaxNonPositive | src/figure.cpp:214-227 | a non-positive maximum on a log y axis only warns; the upper bound is still merged |
| Figures.ZBounds | src/figure.cpp:239-253 | the z range only widens; the upper bound merges the z maximum; the lower bound merges the raw z minimum on a linear z axis and the least positive z value on a log z axis; no margin |
| Figures.SetRanges3 | src/figure.cpp:233-255 | the 3D setRanges merges the z range and then does the 2D merge with margin 0; it warns iff the z axis or the 2D merge does |
| Figures.SetRangesIgnoresZ | src/figure.cpp:254 | the 2D merge does not depend on the z range, so merging z first does not change it |
| Figures.Ranges | src/figure.cpp:145-157 | ranges stores the four values verbatim, turns automatic ranging off, and warns iff an interval is inverted |
| Figures.SetLog | src/figure.cpp:261-273 | each set flag switches its axis to log scale; an unset flag leaves that axis as it was |
| Figures.SetLogSticky | src/figure.cpp:261-273 | two setlog calls act as one with the flags or-ed, so log scaling is never undone and setlog is idempotent |
| Figures.Legend | src/figure.cpp:105-116 | legend turns the legend on at the given position and warns iff a coordinate exceeds 2 in magnitude |
| Plots.ChooseStyle | src/figure.hpp:153-158 | an explicit style is used verbatim and eliminated from the cycler; an empty style takes the cycler's next token |
| Plots.ChooseStyleValid | src/figure.hpp:153-158 | choosing a style keeps the cycler a subsequence of one generation |
| Plots.Plot | src/figure.hpp:131-163 | plot(x, y) merges with margin 0 only when ranging is automatic, appends exactly one 2D item with the chosen style, and warns on a length mismatch without failing |
| Plots.PlotY | src/figure.hpp:119-126 | plot(y) appends y against the abscissa 1..\|y\|, so with automatic ranging the x range covers [1, \|y\|] |
| Plots.Plot3 | src/figure.hpp:168-202 | plot3 sets has_3d, merges z and the box only when ranging is automatic, appends one 3D item, and warns on a length mismatch without failing |
| Plots.FPlotOf | src/figure.cpp:121-140 | fplot chooses a style, appends one formula item, and leaves the ranges alone |
| Plots.TwoUnstyledPlots | src/figure.hpp:153-161 | two unstyled plots on a new figure are drawn with "b-" and then "r-" |
| Plots.NewFigureGood | src/figure.cpp:30-46 | a new figure satisfies the session invariants |
| Plots.ApplyAppends | src/figure.hpp:160-162 | a plotting call appends exactly one item and keeps the earlier ones; other calls append none |
| Plots.ApplyFrozen | src/figure.hpp:146-148 | with automatic ranging off, plotting and settings calls leave the box and z range alone, a direct setRanges only widens them, and no call turns automatic ranging back on |
| Plots.ApplyWidens | src/figure.cpp:194-255 | every call other than ranges keeps or widens the box and z range, keeps the automatic-ranging flag, and never turns a log axis linear |
| Plots.NewItemShown | src/figure.hpp:146-148 | with automatic linear ranging, the appended item's data lie inside the new ranges |
| Plots.ApplyShown | src/figure.hpp:146-148 | with automatic linear ranging, the ranges keep showing every queued item after any call |
| Plots.ApplyGood | src/figure.hpp:131-202 | every call keeps the session invariants |
| Plots.RunGood | src/figure.hpp:131-202 | a session keeps the cycler within one generation, has_3d equal to "a 3D item is queued", and, with automatic linear ranging, every item inside the ranges |
| Plots.RunAppends | src/figure.hpp:131-202 | a session appends one item per plotting call and never changes or drops an earlier item |
| Plots.RunKeeps3d | src/figure.hpp:172 | once set, has_3d stays set for the rest of a session |
| Plots.RunFrozen | src/figure.cpp:152-156 | after ranges, for a session that does not call ranges again, automatic ranging stays off and the box and z range only widen; without direct setRanges calls they stay exactly as set |
| Plots.GridCommutes | src/figure.cpp:73-84 | the grid settings influence no other call: grid commutes with every other call, including its warning |
| Save.MarginSpec | src/figure.cpp:294-306 | the margin spec has "<" iff there is a y label, "_" iff there is an x label and "^" iff there is a title, and holds no other character |
| Save.SubPlotType | src/figure.cpp:294-306 | a figure's margin spec asks for the left, bottom and top margins exactly when its y label, x label and title are non-empty, and the spec holds no character but "<", "_" and "^" |
| Save.MarginSpecRoundTrip | src/figure.cpp:294-306 | reading the spec back gives the three presence flags, and equal flags give the same spec |
| Save.TitleAddsTop | src/figure.cpp:303-306 | setting a non-empty title adds the top margin and keeps the others |
| Save.OutputTarget | src/figure.cpp:364-372 | PNG is chosen iff the name contains ".png"; the path is the name itself when it contains ".png" or ".eps", and the name plus ".eps" otherwise |
| Save.NoPngAcrossSuffix | src/figure.cpp:371 | appending ".eps" to a name without ".png" cannot create one |
| Save.OutputTargetIdempotent | src/figure.cpp:364-372 | saving again under the chosen path chooses the same format and path |

## Left out

- Rendering: every `mglGraph` call in `save` (size, font, subplot, rotation, ranges, labels, curvilinear functions, grid, axis, box, the plots themselves, legend, title, writing PNG/EPS) and the drawing methods of the plot items. Only the decisions that feed these calls are modelled.
- The 3D/2D choice in `save` between rotating and using the margin spec is not modelled. It is a single branch on `has_3d_` in front of foreign calls.
- `setHeight`, `setWidth` and `setFontSize` are plain setters whose values reach only the renderer. The fields keep their constructor defaults in `Figure`.
- Figures.Grid, Figures.Title, Figures.XLabel and Figures.YLabel are plain setters, and their contracts say only which fields they store. What the grid settings and label positions mean is up to the renderer. `Plots.GridCommutes` states that the grid settings influence no other call. `Save.SubPlotType` and `Save.TitleAddsTop` state what the label and title texts decide.
- `xlabel`/`ylabel` store the text and position. `MglLabel.hpp` is not part of this model, and the empty default label ("", 0) is assumed.
- The Eigen overload of `make_mgldata` depends on a library type that is not modelled. `Series.MakeData` covers the `std::vector` overload for integral element types; a vector of doubles is passed through unchanged.
- IEEE arithmetic: rounding in `yMax - yMin` and `yTot * vertMargin`, overflow to infinity, and NaN are not modelled. Values are reals.
- Empty series: the bounds MathGL reports for an empty `mglData` are not modelled. The merges therefore require non-empty series; `plot` and `plot3` require them only while automatic ranging is on, and a session requires them of every plotting call and every direct `setRanges` call.
- Diagnostics: only the messages printed to stderr are kept, as the `warned` flag. The debug traces on stdout (src/figure.cpp:123-125, 196-198, 235-237, 359-361, guarded by `#if NDEBUG`) and the `print` helper are output only and are left out.
- `Plots.PlotY`: states the x range and the warning, not the whole resulting figure, which `Plots.Plot` states for the abscissa it is given.
- `Plots.Run` drops the per-call `warned` flags; each call's flag is stated by that call's own member.
- Items.PlotItem.Is3d follows the `is_3d()` of the plot classes in v2/MglPlot.hpp: true only for the 3D line plot. src/MglPlot.hpp is not part of this model.
- The historical copies of the figure (the v0, v1, v2 and old_versions directories) are superseded variants of the same logic, and are not modelled.

=== FILE: data.dfy ===
/** One-dimensional data series (`mglData` as the figure uses it): a sequence
    of doubles, modelled as reals. IEEE rounding is not modelled; the two
    extreme finite doubles are kept as exact constants because the figure
    uses them as sentinels. */
module Series {

  /** std::numeric_limits<double>::max(), that is (2^53 - 1) * 2^971. */
  const DoubleMax: real := 179769313486231570814527423731704356798070567525844996598917476803157260780028538760589558632766878171540458953514382464234321326889464182768467546703537516986049910576551282076245490090389328944075868508455133942304583236903222948165808559332123348274797826204144723168738177180919299881250404026184124858368.0

  /** std::numeric_limits<double>::lowest(), the negated maximum. */
  const DoubleLowest: real := -DoubleMax

  type Data = seq<real>

  /** Every value lies in the finite double range. */
  predicate AllDouble(d: Data) {
    forall i | 0 <= i < |d| :: DoubleLowest <= d[i] <= DoubleMax
  }

  /** std::min: the first argument unless the second is smaller. */
  function Min(a: real, b: real): (m: real) {
    if b < a then b else a
  }

  /** std::max: the first argument unless the second is larger. */
  function Max(a: real, b: real): (m: real) {
    if a < b then b else a
  }

  /** `mglData::Minimal` of a non-empty series. */
  function Minimal(d: Data): (m: real)
    requires |d| > 0
    ensures m in d
    ensures forall i | 0 <= i < |d| :: m <= d[i]
  {
    if |d| == 1 then d[0] else Min(d[0], Minimal(d[1..]))
  }

  /** `mglData::Maximal` of a non-empty series. */
  function Maximal(d: Data): (m: real)
    requires |d| > 0
    ensures m in d
    ensures forall i | 0 <= i < |d| :: d[i] <= m
  {
    if |d| == 1 then d[0] else Max(d[0], Maximal(d[1..]))
  }

  /** Result of `minPositive`: the value returned and whether the warning
      about non-positive values was printed. */
  datatype Scan = Scan(least: real, warned: bool)

  /** `minPositive`: the least strictly positive value, starting from the
      double maximum (so that is the answer when nothing is positive); the
      warning is printed iff some value is not positive. The recursion walks
      the same front-to-back order as the loop. */
  function MinPositive(d: Data): (s: Scan)
    ensures 0.0 < s.least <= DoubleMax
    ensures s.least == DoubleMax || s.least in d
    ensures forall i | 0 <= i < |d| :: d[i] > 0.0 ==> s.least <= d[i]
    ensures s.warned <==> exists i | 0 <= i < |d| :: d[i] <= 0.0
  {
    if |d| == 0 then Scan(DoubleMax, false)
    else
      var s := MinPositive(d[..|d| - 1]);
      var x := d[|d| - 1];
      assert forall i | 0 <= i < |d| - 1 :: d[..|d| - 1][i] == d[i];
      if x > 0.0 then Scan(Min(s.least, x), s.warned)
      else Scan(s.least, true)
  }

  /** When some value is positive and all values are doubles, `minPositive`
      is a positive value of the series and at most every positive value:
      exactly the least positive value. */
  lemma MinPositiveIsLeast(d: Data, k: nat)
    requires AllDouble(d)
    requires k < |d| && d[k] > 0.0
    ensures MinPositive(d).least in d && MinPositive(d).least > 0.0
    ensures forall i | 0 <= i < |d| && d[i] > 0.0 :: MinPositive(d).least <= d[i]
  {
    var s := MinPositive(d);
    assert s.least <= d[k] <= DoubleMax;
  }

  /** `make_mgldata` for a std::vector of an integral scalar type: the values
      converted to double, in order. */
  function MakeData(v: seq<int>): (d: Data)
    ensures |d| == |v|
    ensures forall i | 0 <= i < |v| :: d[i] == v[i] as real
  {
    seq(|v|, i requires 0 <= i < |v| => v[i] as real)
  }

  /** The conversion keeps the order of the values, so the converted
      series has its extremes where the original has them. */
  lemma MakeDataOrder(v: seq<int>)
    ensures forall i, j | 0 <= i < |v| && 0 <= j < |v| :: v[i] <= v[j] <==> MakeData(v)[i] <= MakeData(v)[j]
    ensures |v| > 0 ==> exists i | 0 <= i < |v| ::
              Minimal(MakeData(v)) == v[i] as real && forall j | 0 <= j < |v| :: v[i] <= v[j]
    ensures |v| > 0 ==> exists k | 0 <= k < |v| ::
              Maximal(MakeData(v)) == v[k] as real && forall j | 0 <= j < |v| :: v[j] <= v[k]
  {
    if |v| > 0 {
      var d := MakeData(v);
      var lo, hi := Minimal(d), Maximal(d);
      var i :| 0 <= i < |d| && d[i] == lo;
      var k :| 0 <= k < |d| && d[k] == hi;
      forall j | 0 <= j < |v|
        ensures v[i] <= v[j] && v[j] <= v[k]
      {
        assert d[i] <= d[j] <= d[k];
      }
    }
  }

  /** The default abscissa of `plot(y)`: std::iota from 1 over n doubles. */
  function Abscissa(n: nat): (x: Data)
    ensures |x| == n
    ensures forall i | 0 <= i < n :: x[i] == (i + 1) as real
  {
    seq(n, i requires 0 <= i < n => (i + 1) as real)
  }

  /** The default abscissa is strictly increasing and spans exactly [1, n]. */
  lemma AbscissaSpan(n: nat)
    requires n > 0
    ensures forall i, j | 0 <= i < j < n :: Abscissa(n)[i] < Abscissa(n)[j]
    ensures Minimal(Abscissa(n)) == 1.0 && Maximal(Abscissa(n)) == n as real
  {
    var x := Abscissa(n);
    assert x[0] == 1.0 && x[n - 1] == n as real;
  }
}

=== FILE: figure.dfy ===
/** The plot items a figure queues (`MglPlot2d`, `MglPlot3d`, `MglFPlot`):
    only the data, the formula and the style are kept; drawing is a call
    into the rendering engine. */
module Items {
  import opened Styles
  import opened Series

  datatype PlotItem =
    | Plot2d(x: Data, y: Data, style: Token)
    | Plot3d(x: Data, y: Data, z: Data, style: Token)
    | FPlot(formula: string, style: Token)
  {
    /** `is_3d()`: only the three-dimensional line plot says yes. */
    predicate Is3d() {
      Plot3d?
    }
  }

  /** Some queued item is three-dimensional. */
  predicate Any3d(items: seq<PlotItem>) {
    exists i | 0 <= i < |items| :: items[i].Is3d()
  }
}

/** The state of a `Figure` and the operations on it that do not queue a
    plot: the range tracker (`setRanges`, `ranges`, `setlog`) and the
    settings (`grid`, `legend`, labels, title). Messages printed to stderr
    are modelled as a `warned` flag next to the new state; no operation
    ever fails. */
module Figures {
  import opened Styles
  import opened Series
  import opened Items

  /** The x/y bounding box, `ranges_` = {xMin, xMax, yMin, yMax}. */
  datatype Box = Box(xMin: real, xMax: real, yMin: real, yMax: real)

  /** The z bounds, `zranges_` = {zMin, zMax}. */
  datatype ZRange = ZRange(zMin: real, zMax: real)

  /** An axis label (`MglLabel`): its text and its position along the axis. */
  datatype Label = Label(text: string, pos: real)

  datatype Figure = Figure(
    axis: bool,
    grid: bool,
    legend: bool,
    legendX: real,
    legendY: real,
    gridType: string,
    gridCol: string,
    has3d: bool,
    box: Box,
    zr: ZRange,
    autoRanges: bool,
    title: string,
    xFunc: string,
    yFunc: string,
    zFunc: string,
    xLabel: Label,
    yLabel: Label,
    styles: seq<Token>,
    fontSize: real,
    height: int,
    width: int,
    plots: seq<PlotItem>)

  /** An operation's new figure and whether it printed a message. */
  datatype Step = Step(fig: Figure, warned: bool)

  const LogX: string := "lg(x)"
  const LogY: string := "lg(y)"
  const LogZ: string := "lg(z)"

  /** The box a new figure starts from: every bound is the opposite extreme,
      so that the first min/max merge takes the data's own bounds. */
  const EmptyBox: Box := Box(DoubleMax, DoubleLowest, DoubleMax, DoubleLowest)
  const EmptyZ: ZRange := ZRange(DoubleMax, DoubleLowest)

  /** `Figure()`: axis and a light grey "xy" grid on, no legend, automatic
      ranges from the sentinel box, a fresh style cycler, 6pt font, 800x800. */
  function NewFigure(): (f: Figure)
    ensures f.axis && f.grid && !f.legend && !f.has3d && f.autoRanges
    ensures f.box.xMin > f.box.xMax && f.box.yMin > f.box.yMax && f.zr.zMin > f.zr.zMax
    ensures f.styles == Palette() && f.plots == []
    ensures f.xFunc != LogX && f.yFunc != LogY && f.zFunc != LogZ
    ensures f.box == EmptyBox && f.zr == EmptyZ
    ensures f.gridType == "xy" && f.gridCol == "{h7}" && f.legendX == 1.0 && f.legendY == 1.0
    ensures f.title == "" && f.xLabel == Label("", 0.0) && f.yLabel == Label("", 0.0)
    ensures f.fontSize == 6.0 && f.height == 800 && f.width == 800
  {
    Figure(
      axis := true, grid := true, legend := false, legendX := 1.0, legendY := 1.0,
      gridType := "xy", gridCol := "{h7}", has3d := false,
      box := EmptyBox, zr := EmptyZ, autoRanges := true,
      title := "", xFunc := "", yFunc := "", zFunc := "",
      xLabel := Label("", 0.0), yLabel := Label("", 0.0),
      styles := Fresh(), fontSize := 6.0, height := 800, width := 800, plots := [])
  }

  /** The box contains every point of the series pair. */
  predicate Covers(b: Box, xd: Data, yd: Data) {
    && (forall i | 0 <= i < |xd| :: b.xMin <= xd[i] <= b.xMax)
    && (forall i | 0 <= i < |yd| :: b.yMin <= yd[i] <= b.yMax)
  }

  /** b is at least as wide as a on every side. */
  predicate Wider(b: Box, a: Box) {
    b.xMin <= a.xMin && a.xMax <= b.xMax && b.yMin <= a.yMin && a.yMax <= b.yMax
  }

  /** Neither axis is log-scaled. */
  predicate Linear(f: Figure) {
    f.xFunc != LogX && f.yFunc != LogY
  }

  /** The messages `setRanges` prints for one axis: on a log axis, one for a
      non-positive maximum and one (from `minPositive`) for any non-positive
      value. A non-positive maximum is itself a non-positive value, so some
      message is printed exactly when a log axis has a non-positive value. */
  function AxisWarning(log: bool, d: Data): (w: bool)
    requires |d| > 0
    ensures w <==> log && exists i | 0 <= i < |d| :: d[i] <= 0.0
  {
    log && (Maximal(d) <= 0.0 || MinPositive(d).warned)
  }

  /** The min/max merge of a box with the four bounds (lo, hi) of new data. */
  function Merge(b: Box, xLo: real, xHi: real, yLo: real, yHi: real): (c: Box)
    ensures Wider(c, b)
    ensures c.xMin <= xLo && xHi <= c.xMax && c.yMin <= yLo && yHi <= c.yMax
    ensures c.xMin == xLo || c.xMin == b.xMin
    ensures c.xMax == xHi || c.xMax == b.xMax
    ensures c.yMin == yLo || c.yMin == b.yMin
    ensures c.yMax == yHi || c.yMax == b.yMax
  {
    Box(Min(xLo, b.xMin), Max(xHi, b.xMax), Min(yLo, b.yMin), Max(yHi, b.yMax))
  }

  /** The box after `setRanges(xd, yd, vertMargin)`: the old box merged with
      the series' bounds, with a vertical margin of vertMargin times the y
      extent (none on a log y axis). */
  function Bounds(f: Figure, xd: Data, yd: Data, vertMargin: real): (b: Box)
    requires |xd| > 0 && |yd| > 0
    ensures Wider(b, f.box)
    ensures b.xMin == Min(Minimal(xd), f.box.xMin) && b.xMax == Max(Maximal(xd), f.box.xMax)
    ensures Linear(f) ==>
              var pad := Pad(Maximal(yd), Minimal(yd), vertMargin);
              && b.yMin == Min(Minimal(yd) - pad, f.box.yMin)
              && b.yMax == Max(Maximal(yd) + pad, f.box.yMax)
    ensures f.xFunc == LogX && f.yFunc != LogY ==>
              var pad := Pad(Maximal(yd), MinPositive(xd).least, vertMargin);
              && b.yMin == Min(MinPositive(xd).least - pad, f.box.yMin)
              && b.yMax == Max(Maximal(yd) + pad, f.box.yMax)
    ensures f.yFunc == LogY ==>
              && b.yMin == Min(MinPositive(yd).least, f.box.yMin)
              && b.yMax == Max(Maximal(yd), f.box.yMax)
  {
    var yMax := Maximal(yd);
    if f.yFunc == LogY then
      // the margin is forced to 0 here, so the pad vanishes
      Merge(f.box, Minimal(xd), Maximal(xd), MinPositive(yd).least, yMax)
    else if f.xFunc == LogX then
      // the least positive x value becomes the lower y bound
      var yMin := MinPositive(xd).least;
      var d := Pad(yMax, yMin, vertMargin);
      Merge(f.box, Minimal(xd), Maximal(xd), yMin - d, yMax + d)
    else
      var yMin := Minimal(yd);
      var d := Pad(yMax, yMin, vertMargin);
      Merge(f.box, Minimal(xd), Maximal(xd), yMin - d, yMax + d)
  }

  /** The 2D merge reads only the box and the x and y scales. */
  lemma BoundsFrame(f: Figure, g: Figure, xd: Data, yd: Data, vertMargin: real)
    requires |xd| > 0 && |yd| > 0
    requires g.box == f.box && g.xFunc == f.xFunc && g.yFunc == f.yFunc
    ensures Bounds(g, xd, yd, vertMargin) == Bounds(f, xd, yd, vertMargin)
  {
  }

  /** `setRanges(xd, yd, vertMargin)`: only the box changes; on a log axis a
      non-positive maximum or value only prints a message. */
  function SetRanges(f: Figure, xd: Data, yd: Data, vertMargin: real): (r: Step)
    requires |xd| > 0 && |yd| > 0
    ensures r.fig == f.(box := Bounds(f, xd, yd, vertMargin))
    ensures r.warned <==>
              || (f.xFunc == LogX && exists i | 0 <= i < |xd| :: xd[i] <= 0.0)
              || (f.yFunc == LogY && exists i | 0 <= i < |yd| :: yd[i] <= 0.0)
  {
    Step(f.(box := Bounds(f, xd, yd, vertMargin)),
         AxisWarning(f.xFunc == LogX, xd) || AxisWarning(f.yFunc == LogY, yd))
  }

  /** The vertical margin `yTot * vertMargin`, with yTot = yMax - yMin. */
  function Pad(yMax: real, yMin: real, vertMargin: real): (d: real) {
    (yMax - yMin) * vertMargin
  }

  /** An ordered pair of bounds and a non-negative margin give a
      non-negative pad. */
  lemma PadNonNeg(yMax: real, yMin: real, vertMargin: real)
    requires yMin <= yMax && vertMargin >= 0.0
    ensures Pad(yMax, yMin, vertMargin) >= 0.0
  {
  }

  /** On linear axes with a non-negative margin the new box contains every
      point of the series. */
  lemma SetRangesCovers(f: Figure, xd: Data, yd: Data, vertMargin: real)
    requires |xd| > 0 && |yd| > 0
    requires Linear(f) && vertMargin >= 0.0
    ensures Covers(SetRanges(f, xd, yd, vertMargin).fig.box, xd, yd)
  {
    var lo, hi := Minimal(yd), Maximal(yd);
    var d := Pad(hi, lo, vertMargin);
    PadNonNeg(hi, lo, vertMargin);
    var b := SetRanges(f, xd, yd, vertMargin).fig.box;
    assert b == Merge(f.box, Minimal(xd), Maximal(xd), lo - d, hi + d);
    assert b.yMin <= lo && hi <= b.yMax;
  }

  /** The first merge on the sentinel box with margin 0 and linear axes yields
      exactly the series' own bounds. */
  lemma FirstRangesExact(f: Figure, xd: Data, yd: Data)
    requires f.box == EmptyBox && Linear(f)
    requires |xd| > 0 && |yd| > 0 && AllDouble(xd) && AllDouble(yd)
    ensures SetRanges(f, xd, yd, 0.0).fig.box == Box(Minimal(xd), Maximal(xd), Minimal(yd), Maximal(yd))
    ensures !SetRanges(f, xd, yd, 0.0).warned
  {
  }

  /** On a log y axis the margin is ignored: any two margins give the same box,
      and the lower bound is the least positive y value. */
  lemma LogYNoMargin(f: Figure, xd: Data, yd: Data, m1: real, m2: real)
    requires |xd| > 0 && |yd| > 0 && f.yFunc == LogY
    ensures SetRanges(f, xd, yd, m1) == SetRanges(f, xd, yd, m2)
  {
  }

  /** With x log-scaled and y linear, the lower y bound comes from the x data:
      x = [2, 3] and y = [-5, 1] on a fresh figure give yMin = 2, and the y
      value -5 falls outside the box. */
  lemma LogXSetsYMin()
    ensures var f := NewFigure().(xFunc := LogX);
            var r := SetRanges(f, [2.0, 3.0], [-5.0, 1.0], 0.0);
            && r.fig.box.xMin == 2.0 && r.fig.box.yMin == 2.0
            && !Covers(r.fig.box, [2.0, 3.0], [-5.0, 1.0])
            && !r.warned
  {
    var f := NewFigure().(xFunc := LogX);
    var xd, yd := [2.0, 3.0], [-5.0, 1.0];
    assert Minimal(xd) == 2.0 && Maximal(xd) == 3.0;
    assert Maximal(yd) == 1.0;
    var s := MinPositive(xd);
    assert s.least == 2.0 by {
      assert MinPositive(xd[..1]).least == 2.0;
    }
  }

  /** A log axis whose maximum is not positive only prints a message: the
      upper bound is still merged. */
  lemma LogMaxNonPositive(f: Figure, xd: Data, yd: Data, vertMargin: real)
    requires |xd| > 0 && |yd| > 0 && f.yFunc == LogY && Maximal(yd) <= 0.0
    ensures SetRanges(f, xd, yd, vertMargin).warned
    ensures SetRanges(f, xd, yd, vertMargin).fig.box.yMax == Max(Maximal(yd), f.box.yMax)
  {
    assert Maximal(yd) in yd;
  }

  /** The z range after `setRanges(xd, yd, zd)`: the raw z bounds (the least
      positive z value as lower bound on a log z axis) merged in, without
      margin. */
  function ZBounds(f: Figure, zd: Data): (zr: ZRange)
    requires |zd| > 0
    ensures zr.zMin <= f.zr.zMin && f.zr.zMax <= zr.zMax
    ensures Maximal(zd) <= zr.zMax
    ensures zr.zMax == Max(f.zr.zMax, Maximal(zd))
    ensures f.zFunc != LogZ ==> zr.zMin <= Minimal(zd) && zr.zMin == Min(f.zr.zMin, Minimal(zd))
    ensures f.zFunc == LogZ ==> zr.zMin == Min(f.zr.zMin, MinPositive(zd).least)
  {
    var zMin := if f.zFunc == LogZ then MinPositive(zd).least else Minimal(zd);
    ZRange(Min(f.zr.zMin, zMin), Max(f.zr.zMax, Maximal(zd)))
  }

  /** The z merge reads only the z range and the z scale. */
  lemma ZBoundsFrame(f: Figure, g: Figure, zd: Data)
    requires |zd| > 0
    requires g.zr == f.zr && g.zFunc == f.zFunc
    ensures ZBounds(g, zd) == ZBounds(f, zd)
  {
  }

  /** `setRanges(xd, yd, zd)`: the z merge, then the 2D merge with margin 0. */
  function SetRanges3(f: Figure, xd: Data, yd: Data, zd: Data): (r: Step)
    requires |xd| > 0 && |yd| > 0 && |zd| > 0
    ensures r.fig == f.(box := Bounds(f, xd, yd, 0.0), zr := ZBounds(f, zd))
    ensures r.warned <==>
              || (f.zFunc == LogZ && exists i | 0 <= i < |zd| :: zd[i] <= 0.0)
              || SetRanges(f, xd, yd, 0.0).warned
  {
    var g := f.(zr := ZBounds(f, zd));
    var s := SetRanges(g, xd, yd, 0.0);
    SetRangesIgnoresZ(f, g, xd, yd);
    Step(s.fig, AxisWarning(f.zFunc == LogZ, zd) || s.warned)
  }

  /** The 2D merge reads only the box and the x and y scales. */
  lemma SetRangesIgnoresZ(f: Figure, g: Figure, xd: Data, yd: Data)
    requires |xd| > 0 && |yd| > 0
    requires g == f.(zr := g.zr)
    ensures SetRanges(g, xd, yd, 0.0).fig.box == SetRanges(f, xd, yd, 0.0).fig.box
    ensures SetRanges(g, xd, yd, 0.0).warned == SetRanges(f, xd, yd, 0.0).warned
  {
    assert g.box == f.box && g.xFunc == f.xFunc && g.yFunc == f.yFunc;
  }

  /** `ranges(xMin, xMax, yMin, yMax)`: store the box verbatim and stop
      automatic ranging; an inverted interval only prints a message. */
  function Ranges(f: Figure, xMin: real, xMax: real, yMin: real, yMax: real): (r: Step)
    ensures r.fig == f.(box := r.fig.box, autoRanges := false)
    ensures r.fig.box.xMin == xMin && r.fig.box.xMax == xMax
    ensures r.fig.box.yMin == yMin && r.fig.box.yMax == yMax
    ensures r.warned <==> xMin > xMax || yMin > yMax
  {
    Step(f.(autoRanges := false, box := Box(xMin, xMax, yMin, yMax)), xMin > xMax || yMin > yMax)
  }

  /** `setlog(logx, logy, logz)`: each flag that is set switches its axis to
      log scale; a flag that is not set leaves the axis as it was. */
  function SetLog(f: Figure, logX: bool, logY: bool, logZ: bool): (g: Figure)
    ensures g == f.(xFunc := g.xFunc, yFunc := g.yFunc, zFunc := g.zFunc)
    ensures g.xFunc == (if logX then LogX else f.xFunc)
    ensures g.yFunc == (if logY then LogY else f.yFunc)
    ensures g.zFunc == (if logZ then LogZ else f.zFunc)
  {
    var f1 := if logX then f.(xFunc := LogX) else f;
    var f2 := if logY then f1.(yFunc := LogY) else f1;
    if logZ then f2.(zFunc := LogZ) else f2
  }

  /** Log scaling cannot be undone: two calls act as one call with the flags
      or-ed, so in particular a repeated call changes nothing. */
  lemma SetLogSticky(f: Figure, a1: bool, b1: bool, c1: bool, a2: bool, b2: bool, c2: bool)
    ensures SetLog(SetLog(f, a1, b1, c1), a2, b2, c2) == SetLog(f, a1 || a2, b1 || b2, c1 || c2)
    ensures SetLog(SetLog(f, a1, b1, c1), a1, b1, c1) == SetLog(f, a1, b1, c1)
  {
  }

  /** `grid(on, gridType, gridCol)`; the defaults of the declaration are
      on, "-" and "h". */
  function Grid(f: Figure, on: bool, gridType: string, gridCol: string): (g: Figure)
    ensures g == f.(grid := on, gridType := gridType, gridCol := gridCol)
  {
    f.(grid := on, gridType := gridType, gridCol := gridCol)
  }

  /** `legend(xPos, yPos)`: turn the legend on at that position; a coordinate
      beyond 2 in magnitude only prints a message. */
  function Legend(f: Figure, xPos: real, yPos: real): (r: Step)
    ensures r.fig == f.(legend := true, legendX := xPos, legendY := yPos)
    ensures r.warned <==> xPos > 2.0 || xPos < -2.0 || yPos > 2.0 || yPos < -2.0
  {
    Step(f.(legend := true, legendX := xPos, legendY := yPos), Abs(xPos) > 2.0 || Abs(yPos) > 2.0)
  }

  function Abs(x: real): (a: real) {
    if x < 0.0 then -x else x
  }

  /** `xlabel(label, pos)`. */
  function XLabel(f: Figure, text: string, pos: real): (g: Figure)
    ensures g == f.(xLabel := Label(text, pos))
  {
    f.(xLabel := Label(text, pos))
  }

  /** `ylabel(label, pos)`. */
  function YLabel(f: Figure, text: string, pos: real): (g: Figure)
    ensures g == f.(yLabel := Label(text, pos))
  {
    f.(yLabel := Label(text, pos))
  }

  /** `title(text)`. */
  function Title(f: Figure, text: string): (g: Figure)
    ensures g == f.(title := text)
  {
    f.(title := text)
  }
}

=== FILE: plots.dfy ===
/** The operations that queue a plot (`plot(y)`, `plot(x, y)`, `plot3`,
    `fplot`) and a whole session of figure operations, with the invariants
    a session keeps. */
module Plots {
  import opened Styles
  import opened Series
  import opened Items
  import opened Figures

  /** The style an operation uses and the cycler left behind: an empty style
      takes the next cycler token, an explicit one is used verbatim and
      eliminated from the cycler. */
  function ChooseStyle(q: seq<Token>, style: Token): (d: Draw)
    ensures |style| > 0 ==> d.token == style && d.rest == Eliminate(q, style)
    ensures |style| == 0 && |q| > 0 ==> d.token == q[0] && d.rest == q[1..]
    ensures |style| == 0 && |q| == 0 ==> d.token == Palette()[0] && d.rest == Palette()[1..]
  {
    if |style| == 0 then
      var d := GetNext(q);
      FrontRest(d.token, d.rest, if |q| == 0 then Palette() else q);
      d
    else Draw(style, Eliminate(q, style))
  }

  /** The cycler stays a subsequence of one palette generation. */
  lemma ChooseStyleValid(q: seq<Token>, style: Token)
    requires Valid(q)
    ensures Valid(ChooseStyle(q, style).rest)
  {
    if |style| == 0 {
      GetNextValid(q);
    } else {
      EliminateValid(q, style);
    }
  }

  /** `plot(x, y, style)`: with automatic ranges the box is merged with
      margin 0; then one 2D item with the chosen style is appended. Series of
      different lengths only print a message. */
  function Plot(f: Figure, x: Data, y: Data, style: Token): (r: Step)
    requires f.autoRanges ==> |x| > 0 && |y| > 0
    ensures r.fig == f.(box := r.fig.box, styles := r.fig.styles, plots := r.fig.plots)
    ensures r.fig.box == if f.autoRanges then Bounds(f, x, y, 0.0) else f.box
    ensures r.fig.styles == ChooseStyle(f.styles, style).rest
    ensures r.fig.plots == f.plots + [Plot2d(x, y, ChooseStyle(f.styles, style).token)]
    ensures r.warned <==> |x| != |y| || (f.autoRanges && SetRanges(f, x, y, 0.0).warned)
  {
    var s := if f.autoRanges then SetRanges(f, x, y, 0.0) else Step(f, false);
    var d := ChooseStyle(s.fig.styles, style);
    Step(s.fig.(styles := d.rest, plots := s.fig.plots + [Plot2d(x, y, d.token)]),
         |x| != |y| || s.warned)
  }

  /** `plot(y, style)`: plots y against the abscissa 1, 2, ..., |y|, so the
      x range covers [1, |y|] and the lengths always agree. */
  function PlotY(f: Figure, y: Data, style: Token): (r: Step)
    requires f.autoRanges ==> |y| > 0
    ensures r.fig.plots == f.plots + [Plot2d(Abscissa(|y|), y, ChooseStyle(f.styles, style).token)]
    ensures f.autoRanges ==> r.fig.box.xMin <= 1.0 && (|y| as real) <= r.fig.box.xMax
    ensures f.autoRanges ==> (r.warned <==> SetRanges(f, Abscissa(|y|), y, 0.0).warned)
    ensures !f.autoRanges ==> !r.warned
  {
    var r := Plot(f, Abscissa(|y|), y, style);
    if |y| > 0 then AbscissaSpan(|y|); r else r
  }

  /** `plot3(x, y, z, style)`: marks the figure as 3D, merges the z range and
      the box (margin 0) when ranging automatically, and appends one 3D item.
      Series of different lengths only print a message. */
  function Plot3(f: Figure, x: Data, y: Data, z: Data, style: Token): (r: Step)
    requires f.autoRanges ==> |x| > 0 && |y| > 0 && |z| > 0
    ensures r.fig.has3d
    ensures r.fig == f.(has3d := true, box := r.fig.box, zr := r.fig.zr,
                        styles := r.fig.styles, plots := r.fig.plots)
    ensures r.fig.box == if f.autoRanges then Bounds(f, x, y, 0.0) else f.box
    ensures r.fig.zr == if f.autoRanges then ZBounds(f, z) else f.zr
    ensures r.fig.styles == ChooseStyle(f.styles, style).rest
    ensures r.fig.plots == f.plots + [Plot3d(x, y, z, ChooseStyle(f.styles, style).token)]
    ensures r.warned <==>
              || !(|x| == |y| && |y| == |z|)
              || (f.autoRanges && SetRanges3(f, x, y, z).warned)
  {
    var g := f.(has3d := true);
    var s := if g.autoRanges then SetRanges3(g, x, y, z) else Step(g, false);
    var d := ChooseStyle(s.fig.styles, style);
    Step(s.fig.(styles := d.rest, plots := s.fig.plots + [Plot3d(x, y, z, d.token)]),
         !(|x| == |y| && |y| == |z|) || s.warned)
  }

  /** `fplot(function, style)`: appends a formula item; the ranges are not
      touched. */
  function FPlotOf(f: Figure, formula: string, style: Token): (g: Figure)
    ensures g == f.(styles := g.styles, plots := g.plots)
    ensures g.styles == ChooseStyle(f.styles, style).rest
    ensures g.plots == f.plots + [FPlot(formula, ChooseStyle(f.styles, style).token)]
  {
    var d := ChooseStyle(f.styles, style);
    f.(styles := d.rest, plots := f.plots + [FPlot(formula, d.token)])
  }

  /** Two unstyled plots on a new figure are drawn "b-" and then "r-". */
  lemma TwoUnstyledPlots(x1: Data, y1: Data, x2: Data, y2: Data)
    requires |x1| > 0 && |y1| > 0 && |x2| > 0 && |y2| > 0
    ensures var f := Plot(Plot(NewFigure(), x1, y1, "").fig, x2, y2, "").fig;
            f.plots == [Plot2d(x1, y1, "b-"), Plot2d(x2, y2, "r-")]
  {
    var p := Palette();
    PaletteChars();
    assert p[0] == "b-" && p[1] == "r-";
    var f1 := Plot(NewFigure(), x1, y1, "").fig;
    assert f1.styles == p[1..];
    assert p[1..][0] == "r-";
  }

  /** One call of the figure's public interface. */
  datatype Op =
    | DoPlot(x: Data, y: Data, style: Token)
    | DoPlotY(y: Data, style: Token)
    | DoPlot3(x: Data, y: Data, z: Data, style: Token)
    | DoFPlot(formula: string, style: Token)
    | DoSetRanges(x: Data, y: Data, vertMargin: real)
    | DoSetRanges3(x: Data, y: Data, z: Data)
    | DoRanges(xMin: real, xMax: real, yMin: real, yMax: real)
    | DoSetLog(logX: bool, logY: bool, logZ: bool)
    | DoGrid(on: bool, gridType: string, gridCol: string)
    | DoLegend(xPos: real, yPos: real)
    | DoTitle(text: string)
    | DoXLabel(text: string, pos: real)
    | DoYLabel(text: string, pos: real)

  /** The series of a plotting call are non-empty (the bounds of an empty
      series come from the rendering engine and are not modelled). */
  predicate Sized(op: Op) {
    match op
    case DoPlot(x, y, _) => |x| > 0 && |y| > 0
    case DoPlotY(y, _) => |y| > 0
    case DoPlot3(x, y, z, _) => |x| > 0 && |y| > 0 && |z| > 0
    case DoSetRanges(x, y, _) => |x| > 0 && |y| > 0
    case DoSetRanges3(x, y, z) => |x| > 0 && |y| > 0 && |z| > 0
    case _ => true
  }

  function Apply(f: Figure, op: Op): (r: Step)
    requires Sized(op)
  {
    match op
    case DoPlot(x, y, style) => Plot(f, x, y, style)
    case DoPlotY(y, style) => PlotY(f, y, style)
    case DoPlot3(x, y, z, style) => Plot3(f, x, y, z, style)
    case DoFPlot(formula, style) => Step(FPlotOf(f, formula, style), false)
    case DoSetRanges(x, y, m) => SetRanges(f, x, y, m)
    case DoSetRanges3(x, y, z) => SetRanges3(f, x, y, z)
    case DoRanges(a, b, c, d) => Ranges(f, a, b, c, d)
    case DoSetLog(lx, ly, lz) => Step(SetLog(f, lx, ly, lz), false)
    case DoGrid(on, t, c) => Step(Grid(f, on, t, c), false)
    case DoLegend(xPos, yPos) => Legend(f, xPos, yPos)
    case DoTitle(text) => Step(Title(f, text), false)
    case DoXLabel(text, pos) => Step(XLabel(f, text, pos), false)
    case DoYLabel(text, pos) => Step(YLabel(f, text, pos), false)
  }

  /** The figure after a session of calls, in order. */
  function Run(f: Figure, ops: seq<Op>): (g: Figure)
    requires forall i | 0 <= i < |ops| :: Sized(ops[i])
    decreases |ops|
  {
    if |ops| == 0 then f else Run(Apply(f, ops[0]).fig, ops[1..])
  }

  /** The calls that queue a plot item. */
  predicate Queues(op: Op) {
    op.DoPlot? || op.DoPlotY? || op.DoPlot3? || op.DoFPlot?
  }

  /** Number of plotting calls in a session. */
  function PlotCount(ops: seq<Op>): (n: nat)
    decreases |ops|
  {
    if |ops| == 0 then 0 else (if Queues(ops[0]) then 1 else 0) + PlotCount(ops[1..])
  }

  /** `has_3d_` holds exactly when a 3D item is queued. */
  predicate Has3dExact(f: Figure) {
    f.has3d <==> Any3d(f.plots)
  }

  /** A box that covers an item's data (formula items have none). */
  predicate Shows(f: Figure, item: PlotItem) {
    match item
    case Plot2d(x, y, _) => Covers(f.box, x, y)
    case Plot3d(x, y, z, _) =>
      Covers(f.box, x, y) && forall i | 0 <= i < |z| :: f.zr.zMin <= z[i] <= f.zr.zMax
    case FPlot(_, _) => true
  }

  /** While ranging is automatic and no axis is log-scaled, the ranges show
      every queued item. */
  predicate AllShown(f: Figure) {
    f.autoRanges && Linear(f) && f.zFunc != LogZ ==>
      forall i | 0 <= i < |f.plots| :: Shows(f, f.plots[i])
  }

  /** The invariants a session keeps. */
  predicate Good(f: Figure) {
    Has3dExact(f) && Valid(f.styles) && AllShown(f)
  }

  lemma NewFigureGood()
    ensures Good(NewFigure())
  {
    FreshValid();
  }

  /** Plotting calls append exactly one item; the other calls queue none. */
  lemma ApplyAppends(f: Figure, op: Op)
    requires Sized(op)
    ensures |Apply(f, op).fig.plots| == |f.plots| + (if Queues(op) then 1 else 0)
    ensures Apply(f, op).fig.plots[..|f.plots|] == f.plots
  {
    var g := Apply(f, op).fig;
    if Queues(op) {
      assert g.plots[..|f.plots|] == f.plots;
    }
  }

  /** The calls of `setRanges` made directly, which merge whether or not
      ranging is automatic. */
  predicate Direct(op: Op) {
    op.DoSetRanges? || op.DoSetRanges3?
  }

  /** z range b is at least as wide as a. */
  predicate ZWider(b: ZRange, a: ZRange) {
    b.zMin <= a.zMin && a.zMax <= b.zMax
  }

  /** Once automatic ranging is off, nothing turns it back on; apart from
      `ranges`, only a direct `setRanges` changes the ranges, and it only
      widens them. */
  lemma ApplyFrozen(f: Figure, op: Op)
    requires Sized(op) && !f.autoRanges && !op.DoRanges?
    ensures !Direct(op) ==> Apply(f, op).fig.box == f.box && Apply(f, op).fig.zr == f.zr
    ensures Direct(op) ==> Wider(Apply(f, op).fig.box, f.box) && ZWider(Apply(f, op).fig.zr, f.zr)
    ensures !Apply(f, op).fig.autoRanges
  {
    if Direct(op) {
      ApplyWidens(f, op);
    } else {
      match op {
        case DoPlot(x, y, style) =>
        case DoPlotY(y, style) =>
        case DoPlot3(x, y, z, style) =>
        case DoFPlot(formula, style) =>
        case DoSetLog(lx, ly, lz) =>
        case DoGrid(on, t, c) =>
        case DoLegend(xPos, yPos) =>
        case DoTitle(text) =>
        case DoXLabel(text, pos) =>
        case DoYLabel(text, pos) =>
      }
    }
  }

  /** Every call except `ranges` keeps or widens the ranges. */
  lemma ApplyWidens(f: Figure, op: Op)
    requires Sized(op) && !op.DoRanges?
    ensures Wider(Apply(f, op).fig.box, f.box) && ZWider(Apply(f, op).fig.zr, f.zr)
    ensures Apply(f, op).fig.autoRanges == f.autoRanges
    ensures Linear(Apply(f, op).fig) ==> Linear(f)
    ensures Apply(f, op).fig.zFunc != LogZ ==> f.zFunc != LogZ
  {
    match op {
      case DoPlot(x, y, style) =>
      case DoPlotY(y, style) =>
      case DoPlot3(x, y, z, style) =>
      case DoSetRanges(x, y, m) =>
      case DoSetRanges3(x, y, z) =>
      case DoFPlot(formula, style) =>
      case DoSetLog(lx, ly, lz) =>
      case DoGrid(on, t, c) =>
      case DoLegend(xPos, yPos) =>
      case DoTitle(text) =>
      case DoXLabel(text, pos) =>
      case DoYLabel(text, pos) =>
    }
  }

  /** Queued items keep being shown while ranging is automatic on linear axes. */
  lemma ApplyShown(f: Figure, op: Op)
    requires Sized(op) && AllShown(f)
    ensures AllShown(Apply(f, op).fig)
  {
    var g := Apply(f, op).fig;
    if g.autoRanges && Linear(g) && g.zFunc != LogZ {
      assert !op.DoRanges?;
      ApplyWidens(f, op);
      ApplyAppends(f, op);
      KeepShown(f, g);
      forall i | |f.plots| <= i < |g.plots|
        ensures Shows(g, g.plots[i])
      {
        NewItemShown(f, op);
      }
    }
  }

  /** Wider ranges still show every item they showed, and keeping the earlier
      items as a prefix keeps them shown. */
  lemma KeepShown(f: Figure, g: Figure)
    requires Wider(g.box, f.box) && ZWider(g.zr, f.zr)
    requires |f.plots| <= |g.plots| && g.plots[..|f.plots|] == f.plots
    requires forall i | 0 <= i < |f.plots| :: Shows(f, f.plots[i])
    ensures forall i | 0 <= i < |f.plots| :: Shows(g, g.plots[i])
  {
    forall i | 0 <= i < |f.plots|
      ensures Shows(g, g.plots[i])
    {
      assert g.plots[i] == f.plots[i];
      assert Shows(f, f.plots[i]);
    }
  }

  /** The item a plotting call appends is shown by the ranges it leaves. */
  lemma NewItemShown(f: Figure, op: Op)
    requires Sized(op) && Queues(op)
    requires f.autoRanges && Linear(f) && f.zFunc != LogZ
    ensures Shows(Apply(f, op).fig, Apply(f, op).fig.plots[|f.plots|])
  {
    match op
    case DoPlot(x, y, style) =>
      SetRangesCovers(f, x, y, 0.0);
    case DoPlotY(y, style) =>
      SetRangesCovers(f, Abscissa(|y|), y, 0.0);
    case DoPlot3(x, y, z, style) =>
      SetRangesCovers(f, x, y, 0.0);
    case DoFPlot(formula, style) =>
  }

  /** One call keeps the invariants. */
  lemma ApplyGood(f: Figure, op: Op)
    requires Sized(op) && Good(f)
    ensures Good(Apply(f, op).fig)
  {
    var g := Apply(f, op).fig;
    ApplyShown(f, op);
    ApplyAppends(f, op);
    match op {
      case DoPlot(x, y, style) => ChooseStyleValid(f.styles, style);
      case DoPlotY(y, style) => ChooseStyleValid(f.styles, style);
      case DoPlot3(x, y, z, style) => ChooseStyleValid(f.styles, style);
      case DoFPlot(formula, style) => ChooseStyleValid(f.styles, style);
      case _ =>
    }
    if Queues(op) {
      assert forall i | 0 <= i < |f.plots| :: g.plots[i] == f.plots[i];
      assert g.plots[|f.plots|].Is3d() <==> op.DoPlot3?;
    }
  }

  /** A session keeps the invariants: the cycler stays within one palette
      generation, `has_3d_` says whether a 3D item is queued, and with
      automatic linear ranging every item is shown. */
  lemma {:induction false} RunGood(f: Figure, ops: seq<Op>)
    requires forall i | 0 <= i < |ops| :: Sized(ops[i])
    requires Good(f)
    ensures Good(Run(f, ops))
    decreases |ops|
  {
    if |ops| > 0 {
      ApplyGood(f, ops[0]);
      RunGood(Apply(f, ops[0]).fig, ops[1..]);
    }
  }

  /** A session appends one item per plotting call and never changes or
      drops an earlier one. */
  lemma {:induction false} RunAppends(f: Figure, ops: seq<Op>)
    requires forall i | 0 <= i < |ops| :: Sized(ops[i])
    ensures |Run(f, ops).plots| == |f.plots| + PlotCount(ops)
    ensures Run(f, ops).plots[..|f.plots|] == f.plots
    decreases |ops|
  {
    if |ops| > 0 {
      var g := Apply(f, ops[0]).fig;
      ApplyAppends(f, ops[0]);
      RunAppends(g, ops[1..]);
      var h := Run(g, ops[1..]);
      assert h.plots[..|f.plots|] == h.plots[..|g.plots|][..|f.plots|];
    }
  }

  /** Once a 3D item is plotted the figure stays 3D. */
  lemma {:induction false} RunKeeps3d(f: Figure, ops: seq<Op>)
    requires forall i | 0 <= i < |ops| :: Sized(ops[i])
    requires f.has3d
    ensures Run(f, ops).has3d
    decreases |ops|
  {
    if |ops| > 0 {
      RunKeeps3d(Apply(f, ops[0]).fig, ops[1..]);
    }
  }

  /** After `ranges`, for the rest of a session that does not call `ranges`
      again, the box and z range stay as set unless `setRanges` is called
      directly, and then they only widen. */
  lemma {:induction false} RunFrozen(f: Figure, ops: seq<Op>)
    requires forall i | 0 <= i < |ops| :: Sized(ops[i]) && !ops[i].DoRanges?
    requires !f.autoRanges
    ensures !Run(f, ops).autoRanges
    ensures Wider(Run(f, ops).box, f.box) && ZWider(Run(f, ops).zr, f.zr)
    ensures (forall i | 0 <= i < |ops| :: !Direct(ops[i])) ==>
              Run(f, ops).box == f.box && Run(f, ops).zr == f.zr
    decreases |ops|
  {
    if |ops| > 0 {
      ApplyFrozen(f, ops[0]);
      RunFrozen(Apply(f, ops[0]).fig, ops[1..]);
    }
  }

  /** The grid settings reach only the renderer: `grid` commutes with every
      other call, which neither reads nor changes them. */
  lemma GridCommutes(f: Figure, op: Op, on: bool, gridType: string, gridCol: string)
    requires Sized(op) && !op.DoGrid?
    ensures Apply(Grid(f, on, gridType, gridCol), op)
            == Step(Grid(Apply(f, op).fig, on, gridType, gridCol), Apply(f, op).warned)
  {
    if Queues(op) {
      GridCommutesQueued(f, op, on, gridType, gridCol);
    } else if Direct(op) {
      GridCommutesDirect(f, op, on, gridType, gridCol);
    } else {
      GridCommutesSetting(f, op, on, gridType, gridCol);
    }
  }

  lemma GridCommutesQueued(f: Figure, op: Op, on: bool, gridType: string, gridCol: string)
    requires Sized(op) && Queues(op)
    ensures Apply(Grid(f, on, gridType, gridCol), op)
            == Step(Grid(Apply(f, op).fig, on, gridType, gridCol), Apply(f, op).warned)
  {
    match op {
      case DoPlot(x, y, style) => GridCommutesPlot(f, x, y, style, on, gridType, gridCol);
      case DoPlotY(y, style) => GridCommutesPlot(f, Abscissa(|y|), y, style, on, gridType, gridCol);
      case DoPlot3(x, y, z, style) => GridCommutesPlot3(f, x, y, z, style, on, gridType, gridCol);
      case DoFPlot(formula, style) =>
    }
  }

  lemma GridCommutesDirect(f: Figure, op: Op, on: bool, gridType: string, gridCol: string)
    requires Sized(op) && Direct(op)
    ensures Apply(Grid(f, on, gridType, gridCol), op)
            == Step(Grid(Apply(f, op).fig, on, gridType, gridCol), Apply(f, op).warned)
  {
    var g := Grid(f, on, gridType, gridCol);
    match op {
      case DoSetRanges(x, y, m) => BoundsFrame(f, g, x, y, m);
      case DoSetRanges3(x, y, z) =>
        BoundsFrame(f, g, x, y, 0.0);
        ZBoundsFrame(f, g, z);
    }
  }

  lemma GridCommutesSetting(f: Figure, op: Op, on: bool, gridType: string, gridCol: string)
    requires Sized(op) && !Queues(op) && !Direct(op) && !op.DoGrid?
    ensures Apply(Grid(f, on, gridType, gridCol), op)
            == Step(Grid(Apply(f, op).fig, on, gridType, gridCol), Apply(f, op).warned)
  {
    match op {
      case DoRanges(a, b, c, d) =>
      case DoSetLog(lx, ly, lz) =>
      case DoLegend(xPos, yPos) =>
      case DoTitle(text) =>
      case DoXLabel(text, pos) =>
      case DoYLabel(text, pos) =>
    }
  }

  lemma GridCommutesPlot(f: Figure, x: Data, y: Data, style: Token, on: bool, gridType: string, gridCol: string)
    requires f.autoRanges ==> |x| > 0 && |y| > 0
    ensures Plot(Grid(f, on, gridType, gridCol), x, y, style)
            == Step(Grid(Plot(f, x, y, style).fig, on, gridType, gridCol), Plot(f, x, y, style).warned)
  {
    if f.autoRanges {
      BoundsFrame(f, Grid(f, on, gridType, gridCol), x, y, 0.0);
    }
  }

  lemma GridCommutesPlot3(f: Figure, x: Data, y: Data, z: Data, style: Token, on: bool, gridType: string, gridCol: string)
    requires f.autoRanges ==> |x| > 0 && |y| > 0 && |z| > 0
    ensures Plot3(Grid(f, on, gridType, gridCol), x, y, z, style)
            == Step(Grid(Plot3(f, x, y, z, style).fig, on, gridType, gridCol), Plot3(f, x, y, z, style).warned)
  {
    if f.autoRanges {
      BoundsFrame(f, Grid(f, on, gridType, gridCol), x, y, 0.0);
      ZBoundsFrame(f, Grid(f, on, gridType, gridCol), z);
    }
  }
}

=== FILE: save.dfy ===
/** The two decisions `save` takes before handing everything to the
    rendering engine: which margins the 2D subplot keeps, and in which
    format and under which name the picture is written. */
module Save {
  import opened Figures

  /** The subplot margin spec: "<" keeps the left margin for a y label, "_"
      the bottom margin for an x label, "^" the top margin for a title. */
  function MarginSpec(yLabel: string, xLabel: string, title: string): (s: string)
    ensures ('<' in s <==> |yLabel| != 0) && ('_' in s <==> |xLabel| != 0) && ('^' in s <==> |title| != 0)
    ensures |s| <= 3
    ensures forall c | c in s :: c in "<_^"
  {
    (if |yLabel| != 0 then "<" else "") + (if |xLabel| != 0 then "_" else "") + (if |title| != 0 then "^" else "")
  }

  /** The margin spec of a figure, from its label texts and title. */
  function SubPlotType(f: Figure): (s: string)
    ensures ReadSpec(s) == Margins(|f.yLabel.text| != 0, |f.xLabel.text| != 0, |f.title| != 0)
    ensures forall c | c in s :: c in "<_^"
  {
    MarginSpec(f.yLabel.text, f.xLabel.text, f.title)
  }

  /** Which margins a spec asks for, read back from the string. */
  datatype Margins = Margins(left: bool, bottom: bool, top: bool)

  function ReadSpec(s: string): (m: Margins) {
    Margins('<' in s, '_' in s, '^' in s)
  }

  /** The spec is canonical: reading it back gives the three presence flags,
      and equal flags give the same spec (the marks always come in the order
      left, bottom, top). */
  lemma MarginSpecRoundTrip(y1: string, x1: string, t1: string, y2: string, x2: string, t2: string)
    ensures ReadSpec(MarginSpec(y1, x1, t1)) == Margins(|y1| != 0, |x1| != 0, |t1| != 0)
    ensures ((|y1| != 0 <==> |y2| != 0) && (|x1| != 0 <==> |x2| != 0) && (|t1| != 0 <==> |t2| != 0))
            ==> MarginSpec(y1, x1, t1) == MarginSpec(y2, x2, t2)
  {
  }

  /** Setting a title adds the top mark and keeps the others. */
  lemma TitleAddsTop(f: Figure, text: string)
    requires |text| != 0
    ensures ReadSpec(SubPlotType(Title(f, text))) == ReadSpec(SubPlotType(f)).(top := true)
  {
    MarginSpecRoundTrip(f.yLabel.text, f.xLabel.text, text, "", "", "");
    MarginSpecRoundTrip(f.yLabel.text, f.xLabel.text, f.title, "", "", "");
  }

  /** sub occurs in s starting at position i. */
  predicate At(s: string, sub: string, i: nat) {
    i + |sub| <= |s| && s[i..i + |sub|] == sub
  }

  /** `std::string::find(sub) != npos`: sub occurs somewhere in s. */
  predicate Contains(s: string, sub: string) {
    exists i | 0 <= i <= |s| :: At(s, sub, i)
  }

  /** The format and file name a picture is written with. */
  datatype Target = Png(path: string) | Eps(path: string)

  /** Any ".png" in the name selects PNG; otherwise any ".eps" selects EPS;
      otherwise EPS is written under the name with ".eps" appended. */
  function OutputTarget(file: string): (t: Target)
    ensures t.Png? <==> Contains(file, ".png")
    ensures t.path == if Contains(file, ".png") || Contains(file, ".eps") then file else file + ".eps"
  {
    if Contains(file, ".png") then Png(file)
    else if Contains(file, ".eps") then Eps(file)
    else Eps(file + ".eps")
  }

  /** Appending ".eps" cannot create a ".png": an occurrence would have to
      end inside the suffix, whose characters are never the final 'g'. */
  lemma NoPngAcrossSuffix(s: string)
    requires !Contains(s, ".png")
    ensures !Contains(s + ".eps", ".png")
  {
    var t := s + ".eps";
    forall i | 0 <= i <= |t|
      ensures !At(t, ".png", i)
    {
      if i + 4 <= |s| {
        assert !At(s, ".png", i);
        assert t[i..i + 4] == s[i..i + 4];
      } else if i + 4 <= |t| {
        assert t[i + 3] == ".eps"[i + 3 - |s|];
        assert t[i..i + 4][3] == t[i + 3];
      }
    }
  }

  /** Saving again under the chosen name chooses the same target: the choice
      is idempotent. */
  lemma OutputTargetIdempotent(file: string)
    ensures OutputTarget(OutputTarget(file).path) == OutputTarget(file)
  {
    var t := OutputTarget(file);
    if !Contains(file, ".png") && !Contains(file, ".eps") {
      NoPngAcrossSuffix(file);
      var e := file + ".eps";
      assert e[|file|..|file| + 4] == ".eps";
      assert At(e, ".eps", |file|);
    }
  }
}

=== FILE: styles.dfy ===
/** The style cycler (`MglStyle`): a queue of style tokens, generated as the
    cross join of five colour codes with four line types (colour varying
    fastest), consumed from the front and regenerated when it runs empty.
    A caller-chosen style is eliminated from the current generation only. */
module Styles {

  /** A style token as handed to the rendering engine, e.g. "b-" or "m|". */
  type Token = string

  const Colors: seq<Token> := ["b", "r", "g", "c", "m"]
  const LineTypes: seq<Token> := ["-", ":", ";", "|"]

  /** Number of tokens in one generation of the palette. */
  const PaletteSize: nat := 20

  /** All elements of `q` pairwise distinct. */
  ghost predicate Distinct<T>(q: seq<T>) {
    forall i, j | 0 <= i < j < |q| :: q[i] != q[j]
  }

  /** `q` can be obtained from `p` by deleting elements (order is kept). */
  predicate Sub<T(==)>(q: seq<T>, p: seq<T>)
    decreases |p|
  {
    if |q| == 0 then true
    else if |p| == 0 then false
    else (q[0] == p[0] && Sub(q[1..], p[1..])) || Sub(q, p[1..])
  }

  /** w * h, spelled out as repeated addition so that proofs about the cross
      join stay linear. */
  function Times(w: nat, h: nat): (r: nat) {
    if h == 0 then 0 else w + Times(w, h - 1)
  }

  lemma {:induction false} TimesIsProduct(w: nat, h: nat)
    ensures Times(w, h) == w * h
    decreases h
  {
    if h > 0 {
      TimesIsProduct(w, h - 1);
    }
  }

  /** Position n + j*w + i of token a[i] + b[j] in a cross join appended after
      n tokens, when a has w elements. */
  function Slot(n: nat, w: nat, j: nat, i: nat): (k: nat) {
    n + Times(w, j) + i
  }

  /** The tokens a[0] + s, a[1] + s, ... (one pass of the inner loop). */
  function Row(a: seq<Token>, s: Token): (r: seq<Token>)
    ensures |r| == |a|
    ensures forall i | 0 <= i < |a| :: r[i] == a[i] + s
  {
    seq(|a|, i requires 0 <= i < |a| => a[i] + s)
  }

  /** `crossjoin(A, B, res)`: pushes a + b onto res for every b of B (outer
      loop) and every a of A (inner loop). */
  function CrossJoin(a: seq<Token>, b: seq<Token>, res: seq<Token>): (r: seq<Token>)
    ensures |r| == |res| + Times(|a|, |b|)
    decreases |b|
  {
    if |b| == 0 then res
    else CrossJoin(a, b[1..], res + Row(a, b[0]))
  }

  lemma SlotShift(n: nat, w: nat, j: nat, i: nat)
    requires j > 0
    ensures Slot(n, w, j, i) == Slot(n + w, w, j - 1, i)
  {
  }

  /** The existing contents of res are kept as a prefix, and the token for
      (j, i) sits at |res| + j*|a| + i, so the first list varies fastest. */
  lemma {:induction false} CrossJoinLayout(a: seq<Token>, b: seq<Token>, res: seq<Token>)
    ensures CrossJoin(a, b, res)[..|res|] == res
    ensures forall j, i | 0 <= j < |b| && 0 <= i < |a| ::
              && Slot(|res|, |a|, j, i) < |CrossJoin(a, b, res)|
              && CrossJoin(a, b, res)[Slot(|res|, |a|, j, i)] == a[i] + b[j]
    decreases |b|
  {
    if |b| > 0 {
      var res' := res + Row(a, b[0]);
      var r := CrossJoin(a, b, res);
      CrossJoinLayout(a, b[1..], res');
      assert r == CrossJoin(a, b[1..], res');
      assert r[..|res'|] == res';
      assert r[..|res|] == res by {
        assert r[..|res|] == r[..|res'|][..|res|];
        assert res'[..|res|] == res;
      }
      forall j, i | 0 <= j < |b| && 0 <= i < |a|
        ensures Slot(|res|, |a|, j, i) < |r| && r[Slot(|res|, |a|, j, i)] == a[i] + b[j]
      {
        if j == 0 {
          assert Slot(|res|, |a|, j, i) == |res| + i;
          assert r[|res| + i] == r[..|res'|][|res| + i];
        } else {
          SlotShift(|res|, |a|, j, i);
          assert b[1..][j - 1] == b[j];
        }
      }
    }
  }

  /** `MglStyle::get_new`: appends one full generation of the palette to q. */
  function GetNew(q: seq<Token>): (r: seq<Token>)
    ensures |r| == |q| + PaletteSize
  {
    TimesIsProduct(5, 4);
    CrossJoin(Colors, LineTypes, q)
  }

  /** One generation of the palette, as `get_new` produces it into an empty queue. */
  function Palette(): (p: seq<Token>)
    ensures |p| == PaletteSize
  {
    GetNew([])
  }

  /** Token k of the palette is colour k % 5 followed by line type k / 5. */
  lemma PaletteChars()
    ensures forall k | 0 <= k < PaletteSize :: Palette()[k] == ["brgcm"[k % 5], "-:;|"[k / 5]]
  {
    var p := Palette();
    CrossJoinLayout(Colors, LineTypes, []);
    forall k | 0 <= k < PaletteSize
      ensures p[k] == ["brgcm"[k % 5], "-:;|"[k / 5]]
    {
      TimesIsProduct(5, k / 5);
      assert k == Slot(0, 5, k / 5, k % 5);
    }
  }

  /** No token occurs twice in one generation. */
  lemma PaletteDistinct()
    ensures Distinct(Palette())
  {
    var p := Palette();
    PaletteChars();
    assert Distinct("brgcm") && Distinct("-:;|");
    forall i, j | 0 <= i < j < |p|
      ensures p[i] != p[j]
    {
      if i % 5 != j % 5 {
        assert p[i][0] != p[j][0];
      } else {
        assert i / 5 != j / 5;
        assert p[i][1] != p[j][1];
      }
    }
  }

  /** Result of one `get_next` call: the token handed out and the queue left. */
  datatype Draw = Draw(token: Token, rest: seq<Token>)

  /** `MglStyle::get_next`: refill when empty, then pop the front token. */
  function GetNext(q: seq<Token>): (d: Draw)
    ensures |q| > 0 ==> [d.token] + d.rest == q
    ensures |q| == 0 ==> [d.token] + d.rest == Palette()
  {
    var full := if |q| == 0 then GetNew(q) else q;
    Draw(full[0], full[1..])
  }

  /** Position of the first occurrence of t in q. */
  function IndexOf(q: seq<Token>, t: Token): (k: nat)
    requires t in q
    ensures k < |q| && q[k] == t && t !in q[..k]
  {
    if q[0] == t then 0 else 1 + IndexOf(q[1..], t)
  }

  /** `MglStyle::eliminate`: erase the first occurrence of t, if any. */
  function Eliminate(q: seq<Token>, t: Token): (r: seq<Token>)
    ensures t !in q ==> r == q
    ensures t in q ==> |r| == |q| - 1
  {
    if |q| == 0 then q
    else if q[0] == t then q[1..]
    else [q[0]] + Eliminate(q[1..], t)
  }

  /** Only the first occurrence of t is erased; the tokens before and after
      it keep their order. */
  lemma {:induction false} EliminateFirst(q: seq<Token>, t: Token)
    requires t in q
    ensures Eliminate(q, t) == q[..IndexOf(q, t)] + q[IndexOf(q, t) + 1..]
    decreases |q|
  {
    if q[0] != t {
      var k := IndexOf(q, t);
      EliminateFirst(q[1..], t);
      assert q[1..][..k - 1] == q[1..k];
      assert q[1..][k - 1 + 1..] == q[k + 1..];
      assert [q[0]] + q[1..k] == q[..k];
    }
  }

  /** The loop of the container constructor: eliminate each listed token in turn. */
  function EliminateAll(q: seq<Token>, used: seq<Token>): (r: seq<Token>)
    ensures |r| <= |q|
    decreases |used|
  {
    if |used| == 0 then q
    else EliminateAll(Eliminate(q, used[0]), used[1..])
  }

  /** Reference definition: q with every token of `used` filtered out. */
  function Remove(q: seq<Token>, used: set<Token>): (r: seq<Token>)
    ensures forall t :: t in r <==> t in q && t !in used
  {
    if |q| == 0 then []
    else (if q[0] in used then [] else [q[0]]) + Remove(q[1..], used)
  }

  /** `MglStyle()`: one fresh generation. */
  function Fresh(): (q: seq<Token>)
    ensures q == Palette()
  {
    GetNew([])
  }

  /** `MglStyle(const std::string&)`: a fresh generation without the given
      token; it never refills, the queue keeps at least 19 tokens. */
  function FromUsed(used: Token): (q: seq<Token>)
    ensures used !in q
    ensures used in Palette() ==> |q| == PaletteSize - 1 && q == Remove(Palette(), {used})
    ensures used !in Palette() ==> q == Palette()
    ensures Valid(q)
  {
    PaletteDistinct();
    EliminateIsRemove(Palette(), used);
    FreshValid();
    EliminateValid(Palette(), used);
    Eliminate(GetNew([]), used)
  }

  /** The tokens listed in `used`. */
  function Elems(used: seq<Token>): (s: set<Token>) {
    set t | t in used
  }

  /** `MglStyle(const Container&)`: eliminates every listed token and refills
      only when that emptied the queue. */
  function FromUsedAll(used: seq<Token>): (q: seq<Token>)
    ensures (forall k | 0 <= k < PaletteSize :: Palette()[k] in used) ==> q == Palette()
    ensures (exists k | 0 <= k < PaletteSize :: Palette()[k] !in used) ==>
              q == Remove(Palette(), Elems(used))
    ensures Valid(q)
  {
    PaletteDistinct();
    EliminateAllIsRemove(Palette(), used);
    RemoveEmpty(Palette(), used);
    RemoveSub(Palette(), Elems(used));
    SubRefl(Palette());
    var q := EliminateAll(GetNew([]), used);
    if |q| == 0 then GetNew(q) else q
  }

  /** Filtering empties q exactly when every token of q is listed. */
  lemma RemoveEmpty(q: seq<Token>, used: seq<Token>)
    ensures |Remove(q, Elems(used))| == 0 <==> forall k | 0 <= k < |q| :: q[k] in used
  {
    var r := Remove(q, Elems(used));
    if |r| == 0 {
      forall k | 0 <= k < |q| ensures q[k] in used {
        assert q[k] !in r;
      }
    } else {
      assert r[0] in q && r[0] !in Elems(used);
    }
  }

  // ---------------------------------------------------------------------
  // Subsequence and distinctness facts

  lemma {:induction false} SubRefl<T>(q: seq<T>)
    ensures Sub(q, q)
    decreases |q|
  {
    if |q| > 0 {
      SubRefl(q[1..]);
    }
  }

  lemma {:induction false} SubTrans<T>(a: seq<T>, b: seq<T>, c: seq<T>)
    requires Sub(a, b) && Sub(b, c)
    ensures Sub(a, c)
    decreases |c|
  {
    if |a| > 0 {
      if Sub(b, c[1..]) {
        SubTrans(a, b, c[1..]);
      } else if a[0] == b[0] && Sub(a[1..], b[1..]) {
        SubTrans(a[1..], b[1..], c[1..]);
      } else {
        SubTrans(a, b[1..], c[1..]);
      }
    }
  }

  lemma {:induction false} SubMembers<T>(q: seq<T>, p: seq<T>)
    requires Sub(q, p)
    ensures forall x | x in q :: x in p
    decreases |p|
  {
    if |q| > 0 {
      assert forall x | x in p[1..] :: x in p;
      if q[0] == p[0] && Sub(q[1..], p[1..]) {
        SubMembers(q[1..], p[1..]);
        assert forall x | x in q :: x == q[0] || x in q[1..];
      } else {
        SubMembers(q, p[1..]);
      }
    }
  }

  /** Deleting from a duplicate-free queue cannot create a duplicate. */
  lemma {:induction false} SubDistinct<T>(q: seq<T>, p: seq<T>)
    requires Sub(q, p) && Distinct(p)
    ensures Distinct(q)
    decreases |p|
  {
    if |q| > 0 {
      assert Distinct(p[1..]) by {
        forall i, j | 0 <= i < j < |p[1..]| ensures p[1..][i] != p[1..][j] {
          assert p[1..][i] == p[i + 1] && p[1..][j] == p[j + 1];
        }
      }
      if q[0] == p[0] && Sub(q[1..], p[1..]) {
        SubDistinct(q[1..], p[1..]);
        SubMembers(q[1..], p[1..]);
        assert p[0] !in p[1..];
        forall i, j | 0 <= i < j < |q| ensures q[i] != q[j] {
          if i == 0 {
            assert q[j] == q[1..][j - 1];
          } else {
            assert q[i] == q[1..][i - 1] && q[j] == q[1..][j - 1];
          }
        }
      } else {
        SubDistinct(q, p[1..]);
      }
    }
  }

  lemma {:induction false} EliminateSub(q: seq<Token>, t: Token)
    ensures Sub(Eliminate(q, t), q)
    decreases |q|
  {
    if |q| > 0 {
      if q[0] == t {
        SubRefl(q[1..]);
        if |q[1..]| > 0 {
          SubSkip(q[1..], q);
        }
      } else {
        EliminateSub(q[1..], t);
        var r := Eliminate(q, t);
        assert r[0] == q[0] && r[1..] == Eliminate(q[1..], t);
      }
    }
  }

  lemma SubSkip<T>(q: seq<T>, p: seq<T>)
    requires |p| > 0 && q == p[1..]
    ensures Sub(q, p)
  {
    SubRefl(q);
  }

  /** In a duplicate-free queue, eliminating t removes it completely. */
  lemma EliminateGone(q: seq<Token>, t: Token)
    requires Distinct(q)
    ensures t !in Eliminate(q, t)
  {
    if t in q {
      var k := IndexOf(q, t);
      var r := Eliminate(q, t);
      EliminateFirst(q, t);
      forall m | 0 <= m < |r|
        ensures r[m] != t
      {
        if m < k {
          assert r[m] == q[..k][m];
        } else {
          assert r[m] == q[m + 1];
        }
      }
    }
  }

  /** On a duplicate-free queue, erasing the first occurrence is filtering. */
  lemma {:induction false} EliminateIsRemove(q: seq<Token>, t: Token)
    requires Distinct(q)
    ensures Eliminate(q, t) == Remove(q, {t})
    decreases |q|
  {
    if |q| > 0 {
      assert Distinct(q[1..]) by { SubSkip(q[1..], q); SubDistinct(q[1..], q); }
      if q[0] == t {
        assert t !in q[1..];
        RemoveAbsent(q[1..], {t});
      } else {
        EliminateIsRemove(q[1..], t);
      }
    }
  }

  lemma {:induction false} RemoveAbsent(q: seq<Token>, used: set<Token>)
    requires forall t | t in used :: t !in q
    ensures Remove(q, used) == q
    decreases |q|
  {
    if |q| > 0 {
      RemoveAbsent(q[1..], used);
    }
  }

  lemma {:induction false} RemoveTwice(q: seq<Token>, a: set<Token>, b: set<Token>)
    ensures Remove(Remove(q, a), b) == Remove(q, a + b)
    decreases |q|
  {
    if |q| > 0 {
      RemoveTwice(q[1..], a, b);
      var s := Remove(q, a);
      if q[0] in a {
        assert s == Remove(q[1..], a);
      } else {
        assert s == [q[0]] + Remove(q[1..], a);
        assert s[0] == q[0] && s[1..] == Remove(q[1..], a);
        assert Remove(s, b) == (if s[0] in b then [] else [s[0]]) + Remove(s[1..], b);
      }
    }
  }

  lemma {:induction false} RemoveSub(q: seq<Token>, used: set<Token>)
    ensures Sub(Remove(q, used), q)
    decreases |q|
  {
    if |q| > 0 {
      RemoveSub(q[1..], used);
      var r := Remove(q, used);
      if q[0] in used {
        assert r == Remove(q[1..], used);
        if |r| > 0 {
          assert Sub(r, q[1..]);
        }
      } else {
        assert r[0] == q[0] && r[1..] == Remove(q[1..], used);
      }
    }
  }

  /** On a duplicate-free queue, the constructor's elimination loop filters
      out exactly the listed tokens. */
  lemma {:induction false} EliminateAllIsRemove(q: seq<Token>, used: seq<Token>)
    requires Distinct(q)
    ensures EliminateAll(q, used) == Remove(q, Elems(used))
    decreases |used|
  {
    if |used| == 0 {
      assert Elems(used) == {};
      RemoveAbsent(q, {});
    } else {
      var q' := Eliminate(q, used[0]);
      EliminateIsRemove(q, used[0]);
      RemoveSub(q, {used[0]});
      SubDistinct(q', q);
      EliminateAllIsRemove(q', used[1..]);
      RemoveTwice(q, {used[0]}, Elems(used[1..]));
      assert {used[0]} + Elems(used[1..]) == Elems(used);
    }
  }

  // ---------------------------------------------------------------------
  // The queue invariant and the cycle

  /** Invariant of every reachable queue: a subsequence of one palette
      generation, hence in palette order and free of duplicates. */
  predicate Valid(q: seq<Token>) {
    Sub(q, Palette())
  }

  lemma ValidDistinct(q: seq<Token>)
    requires Valid(q)
    ensures Distinct(q)
  {
    PaletteDistinct();
    SubDistinct(q, Palette());
  }

  lemma FreshValid()
    ensures Valid(Fresh())
  {
    SubRefl(Palette());
  }

  lemma GetNextValid(q: seq<Token>)
    requires Valid(q)
    ensures Valid(GetNext(q).rest)
  {
    var full := if |q| == 0 then Palette() else q;
    if |q| == 0 {
      SubRefl(full);
    }
    SubSkip(full[1..], full);
    SubTrans(full[1..], full, Palette());
  }

  lemma EliminateValid(q: seq<Token>, t: Token)
    requires Valid(q)
    ensures Valid(Eliminate(q, t))
  {
    EliminateSub(q, t);
    SubTrans(Eliminate(q, t), q, Palette());
  }

  /** The tokens handed out by n successive `get_next` calls, and the queue left. */
  datatype Drain = Drain(tokens: seq<Token>, rest: seq<Token>)

  function Draws(q: seq<Token>, n: nat): (r: Drain)
    ensures |r.tokens| == n
    decreases n
  {
    if n == 0 then Drain([], q)
    else
      var d := GetNext(q);
      var r := Draws(d.rest, n - 1);
      Drain([d.token] + r.tokens, r.rest)
  }

  /** Up to |q| calls never refill: they hand out a prefix of q, in order. */
  lemma {:induction false} DrainPrefix(q: seq<Token>, n: nat)
    requires n <= |q|
    ensures Draws(q, n) == Drain(q[..n], q[n..])
    decreases n
  {
    if n > 0 {
      DrainPrefix(q[1..], n - 1);
      assert [q[0]] + q[1..][..n - 1] == q[..n];
      assert q[1..][n - 1..] == q[n..];
    }
  }

  /** Draining a non-refilling queue hands out exactly its tokens, in order. */
  lemma DrainQueue(q: seq<Token>)
    ensures Draws(q, |q|) == Drain(q, [])
  {
    DrainPrefix(q, |q|);
    assert q[..|q|] == q;
  }

  /** a + b calls are a calls followed by b calls on the queue they leave. */
  lemma {:induction false} DrawsSplit(q: seq<Token>, a: nat, b: nat)
    ensures Draws(q, a + b).tokens == Draws(q, a).tokens + Draws(Draws(q, a).rest, b).tokens
    decreases a
  {
    if a > 0 {
      var d := GetNext(q);
      DrawsSplit(d.rest, a - 1, b);
      assert a + b - 1 == (a - 1) + b;
    }
  }

  /** An exhausted queue hands out the same tokens as a fresh one. */
  lemma RefillLikeFresh(n: nat)
    ensures Draws([], n).tokens == Draws(Palette(), n).tokens
  {
    if n > 0 {
      var d := GetNext([]);
      FrontRest(d.token, d.rest, Palette());
    }
  }

  lemma FrontRest<T>(x: T, r: seq<T>, s: seq<T>)
    requires [x] + r == s
    ensures |s| > 0 && x == s[0] && r == s[1..]
  {
    assert s[0] == ([x] + r)[0];
    assert s[1..] == ([x] + r)[1..];
  }

  /** After an exhausted queue, m further calls hand out what m calls on p do. */
  ghost predicate RefillsAt(p: seq<Token>, m: nat) {
    Draws([], m).tokens == Draws(p, m).tokens
  }

  /** An exhausted queue behaves, for any number of further calls, like p. */
  ghost predicate RefillsTo(p: seq<Token>) {
    forall m: nat :: RefillsAt(p, m)
  }

  lemma RefillsToPalette()
    ensures RefillsTo(Palette())
  {
    forall m: nat
      ensures RefillsAt(Palette(), m)
    {
      RefillLikeFresh(m);
    }
  }

  /** Call k < |p| on queue p returns p[k]. */
  lemma {:induction false} DrawPrefix(p: seq<Token>, n: nat, k: nat)
    requires k < n && k < |p|
    ensures Draws(p, n).tokens[k] == p[k]
  {
    if n <= |p| {
      DrainPrefix(p, n);
    } else {
      DrawsSplit(p, |p|, n - |p|);
      DrainQueue(p);
    }
  }

  /** Call k >= |p| on queue p is call k - |p| on the queue p leaves. */
  lemma {:induction false} DrawShift(p: seq<Token>, n: nat, k: nat)
    requires |p| <= k < n
    ensures Draws(p, n).tokens[k] == Draws(Draws(p, |p|).rest, n - |p|).tokens[k - |p|]
  {
    DrawsSplit(p, |p|, n - |p|);
  }

  /** If the empty queue refills to p, call k >= |p| repeats call k - |p|. */
  lemma {:induction false} DrawPeriod(p: seq<Token>, n: nat, k: nat)
    requires |p| <= k < n
    requires RefillsAt(p, n - |p|)
    ensures Draws(p, n).tokens[k] == Draws(p, n - |p|).tokens[k - |p|]
  {
    DrawShift(p, n, k);
    DrainQueue(p);
  }

  lemma ModStep(k: nat)
    requires k >= 20
    ensures (k - 20) % 20 == k % 20
  {
  }

  /** A twenty-token queue that refills to itself hands out p[k mod 20] on call k. */
  lemma {:induction false} CycleOf(p: seq<Token>, n: nat, k: nat)
    requires |p| == 20 && RefillsTo(p)
    requires k < n
    ensures Draws(p, n).tokens[k] == p[k % 20]
    decreases k
  {
    if k < 20 {
      DrawPrefix(p, n, k);
      assert k % 20 == k;
    } else {
      DrawPeriod(p, n, k);
      CycleOf(p, n - 20, k - 20);
      ModStep(k);
    }
  }

  /** Call k on a fresh cycler returns palette token k mod 20: the cycler is
      periodic, so the 21st call returns "b-", the same as the 1st. */
  lemma FreshCycle(n: nat)
    ensures forall k | 0 <= k < n :: Draws(Fresh(), n).tokens[k] == Palette()[k % 20]
    ensures n > PaletteSize ==> Draws(Fresh(), n).tokens[PaletteSize] == Draws(Fresh(), n).tokens[0] == "b-"
  {
    RefillsToPalette();
    forall k | 0 <= k < n
      ensures Draws(Fresh(), n).tokens[k] == Palette()[k % 20]
    {
      CycleOf(Palette(), n, k);
    }
    if n > PaletteSize {
      PaletteChars();
      assert Palette()[0] == "b-";
    }
  }

  /** Twenty calls on a fresh cycler hand out twenty distinct tokens and
      leave the queue empty. */
  lemma FirstGeneration()
    ensures Draws(Fresh(), PaletteSize).tokens == Palette()
    ensures Distinct(Draws(Fresh(), PaletteSize).tokens)
    ensures Draws(Fresh(), PaletteSize).rest == []
  {
    DrainQueue(Palette());
    PaletteDistinct();
  }

  /** After `eliminate(t)` on a reachable queue, draining what is left of
      that generation never hands out t. */
  lemma DrainAfterEliminate(q: seq<Token>, t: Token)
    requires Valid(q)
    ensures t !in Draws(Eliminate(q, t), |Eliminate(q, t)|).tokens
  {
    ValidDistinct(q);
    EliminateGone(q, t);
    DrainQueue(Eliminate(q, t));
  }
}
